=== FILE: README.md ===
# DATAStack lifecycle model in Dafny

DATAStack is a thin wrapper around Core Data. It owns one persistent store coordinator,
a private-queue writer context attached to that coordinator, and a main-queue context
whose parent is the writer. It creates background contexts that save directly to the
coordinator and merge into the main context. It persists in two stages: the main
context first, then the writer. It also provides disposable main contexts, backed by a
throwaway in-memory store, that reset themselves on every save.

This project models the library's sequential decision logic and lifecycle:

- an immutable stack record with three optional slots (coordinator, writer, main), the
  lazily created disposable coordinator, and an abstract file system (a set of existing
  paths);
- a pure transition function for each public operation. Each Core Data or file-manager
  call is replaced by an oracle outcome, and each `fatalError` becomes
  `Outcomes.Fatal(reason)`.

The two `DATAStack.swift` files are modelled as two revisions of one model
(`Stack.Revision`). `Current` is `Source/DATAStack.swift`. `Legacy` is
`DATAStack/DATAStack.swift`. The modelled revisions differ in four places:

- persist error handling: the older revision stops the process and posts no notification;
- the default initialiser: the older revision force-unwraps `CFBundleName`;
- `newBackgroundContext(name:)` exists only in the current revision. The older
  `performInNewBackgroundContext` builds the same unnamed context inline, and
  `Lifecycle.Offers` keeps the older revision's runs to the operations it has;
- `dropEntityCollection` exists only in the current revision, and it is not modelled.

The older will-save hook force-casts the notification object (`as!`), where the current
one uses `as?`. In the model that object is always a context, so both behave alike.
`TestCheck` is defined only in the older file, although the newer one uses it. The test flag is computed from the environment by
`TestCheck.IsTesting` and passed into the stack once (`Lifecycle.Start`).

Modules:

- `Outcomes`: Option, Outcome, and one `Crash` constructor per `fatalError` site.
- `Paths`: `pathExtension` and `stringByDeletingPathExtension`.
- `TestCheck`: the test flag and the two dispatch choices derived from it.
- `Store`: configuration, model resolution, the store-opening policy, and the
  disposable coordinator.
- `Stack`: the lazy getters, background and disposable contexts, the did-save merge,
  and `drop`.
- `Persist`: the persist pipeline of both revisions, as an event trace.
- `Scratch`: pending and stored objects of a context, enough to show that a disposable
  context persists nothing.
- `Lifecycle`: arbitrary operation sequences and the slot invariant across them.

Assumptions:

- `pathExtension` is the text after the last `.` of the part after the last `/`, or ""
  when that part has no `.`. A `.` that begins that part does not start an extension,
  so the hidden file `.sqlite` has none. `NSString` also strips trailing slashes and
  treats a final `..` component specially; this model does neither.
- `removeItemAtPath` fails when the file does not exist. It also fails when the path is
  in `FileSystem.unremovable`, an oracle set of paths the file manager refuses to delete.
- A successful `addPersistentStoreWithType` for SQLite leaves the store file in place.
  A failed one leaves the file system as it was: a file that existed stays, and none is
  created. So on a fresh store path with no bundled seed, a failed first add makes the
  removal fail (`RemoveStoreFailed`, Source/DATAStack.swift:113-121) and the add is never
  retried. A failed add that leaves a partial file behind is not modelled.
- The URL Core Data gives an in-memory store is an oracle value (`memoryStoreURL`).
  `drop` reads it.

Three behaviours of the code are easy to miss. The model states each one as written:

- Completions are not always delivered on the main queue. Outside tests, a failed
  writer save's completion (Source/DATAStack.swift:272-274) is called directly on the
  writer's own queue. Only the success path is dispatched to the main queue (268-270).
  `Persist.WriterFailureCompletesOffMainQueue` states this.
- `drop` reads the coordinator first, so on a fresh stack it opens the store before
  deleting it. For an in-memory store without a URL, it stops the process
  (`StoreNotFound`) rather than only resetting the slots.
- With an empty model name, the store is the hidden file `<documents>/.sqlite`. Under
  the leading-dot rule above that name has no extension, so `drop` looks for
  `.sqlite.sqlite-shm` and `.sqlite.sqlite-wal` (`Stack.DropTargetsOfUnnamedStore`).
  The current revision's default initialiser produces an empty model name when the
  bundle has no `CFBundleName`.

## Model

| member | source | states |
|---|---|---|
| `Paths.ExtensionOf` | DATAStack/DATAStack.swift:330 | The extension found is the text after a `.` at the end of the path. That `.` does not begin a component, and the extension holds no `.` or `/`. When none is found, every `.` in the path is followed by a `/` or begins a component. |
| `Paths.PathExtension` | DATAStack/DATAStack.swift:336 | A non-empty result is the text after the last `.` of the last component, and that `.` does not begin the component. An empty result means the path ends in a non-leading `.`, or its last component has no `.` except a leading one. The result never contains `.` or `/`. |
| `Paths.DeletingPathExtension` | Source/DATAStack.swift:343 | Deleting the extension and appending `.` plus the extension gives back the path. A path without an extension is returned unchanged. |
| `Paths.ExtensionOfAppended` | Source/DATAStack.swift:343 | For a non-empty stem not ending in `/` and an extension without `.` or `/`, the extension found in `<stem>.<ext>` is exactly `ext`. |
| `Paths.ExtensionOfJoin` | Source/DATAStack.swift:343-350 | For a non-empty stem not ending in `/`, `<stem>.<ext>` has extension `ext`, and deleting that extension gives back the stem (round trip). |
| `Paths.HiddenFileHasNoExtension` | Source/DATAStack.swift:343 | A hidden file `<dir>/.<ext>` has no extension, and deleting the extension leaves the path whole. |
| `TestCheck.IsTesting` | DATAStack/DATAStack.swift:322-341 | True iff `TRAVIS` or `XCTestConfigurationFilePath` is set, or `XPC_SERVICE_NAME` or `XCInjectBundle` is set with extension `xctest`. An absent variable contributes false. |
| `TestCheck.ServiceNameOfTestBundle` | DATAStack/DATAStack.swift:328-332 | Setting `XPC_SERVICE_NAME` to `<stem>.xctest`, for a non-empty stem not ending in `/`, turns test mode on whatever else is in the environment. |
| `TestCheck.NoIndicatorNoTesting` | DATAStack/DATAStack.swift:323-340 | Without any of the four variables, the process is not in test mode. |
| `TestCheck.BackgroundConcurrencyType` | DATAStack/DATAStack.swift:308-310 | Background and writer contexts are main-queue confined iff testing. Otherwise they use a private queue. |
| `TestCheck.PerformSelectorForBackgroundContext` | DATAStack/DATAStack.swift:312-314 | Blocks are handed off with `performBlockAndWait:` (they run before the call returns) iff testing. Otherwise `performBlock:` is used. |
| `TestCheck.DispatchFollowsEnvironment` | DATAStack/DATAStack.swift:308-314 | A test environment selects both main-queue confinement and synchronous hand-off. Any other environment selects private queues and asynchronous hand-off. |
| `Store.ResolveModel` | Source/DATAStack.swift:68-78 | The model comes from `.mom` iff the `.mom` loads. It comes from `.momd` iff there is no `.mom` and the `.momd` loads. Otherwise there is no model, and construction is fatal. |
| `Store.UnreadableMomShadowsMomd` | Source/DATAStack.swift:70-78 | A `.mom` that does not load overrides a loadable `.momd`, and no model results. |
| `Store.StoreFileName` | Source/DATAStack.swift:66 | When the base name (`storeName` if given, otherwise `modelName`) is a stem, the store file name has extension `sqlite` and that base name as its stem. An empty base name gives the hidden `.sqlite`. |
| `Store.StorePath` | Source/DATAStack.swift:90-91 | The store file lies directly in the documents directory: the path is `<documents>/` followed by exactly the store file name. |
| `Store.StorePathShape` | Source/DATAStack.swift:91 | The store path is `<documents>/<storeName or modelName>.sqlite`. |
| `Store.StorePathStem` | Source/DATAStack.swift:343 | When the base name is a stem, deleting the store path's extension gives `<documents>/<base>`, the prefix of the side-file names. |
| `Store.UnnamedStorePathHasNoStem` | Source/DATAStack.swift:66 | With an empty base name, the store path is `<documents>/.sqlite`, and deleting its extension leaves it whole. |
| `Store.AddWithRecovery` | Source/DATAStack.swift:107-123 | The first failed add removes the store file and retries exactly once. A failed removal, or a missing file, is fatal (`RemoveStoreFailed`). A failed retry is fatal (`AddStoreFailed`). On success the store file exists and no other file changed. |
| `Store.RemoveFile` | Source/DATAStack.swift:113 | `removeItemAtPath` succeeds iff the file exists and the file manager does not refuse it. The path is then gone, every other file is kept, and the documents directory and the set of files it refuses to remove are unchanged. |
| `Store.OpenSQLite` | Source/DATAStack.swift:90-134 | The SQLite branch succeeds iff all three steps succeed: a needed seed copy, the add with recovery, and backup exclusion unless testing. The coordinator then holds the store path and is excluded from backup iff not testing. The file system is the one the add left. The seed copy is logged iff it was needed, and then comes first. The add steps follow in their own order. The exclusion is logged iff not testing, and then comes last. |
| `Store.OpenCoordinator` | Source/DATAStack.swift:63-141 | Opening succeeds iff all of the following hold: a model resolves; an in-memory add succeeds; for SQLite, a needed seed copy succeeds, the add-with-recovery succeeds, and backup exclusion succeeds unless testing. Each failure gives its own fatal reason: `ModelNotFound`, `AddStoreFailed`, `CopyPreloadFailed`, the recovery's reason, or `ExcludeFromBackupFailed`. An in-memory store never touches the file system. A SQLite store ends at `<documents>/<base>.sqlite` with only that path changed. The file is excluded from backup iff the store is SQLite and not testing. |
| `Store.OpenRetriesAtMostOnce` | Source/DATAStack.swift:107-123 | A successful open makes at most two add attempts. When it makes two, the first failed. The log then holds, consecutively, the failed add, the removal of the store file and the successful retry. |
| `Store.SeedCopiedOnlyWhenAbsent` | Source/DATAStack.swift:94-105 | The bundled `<modelName>.sqlite` seed is copied iff no store file exists and the bundle ships it. An existing store file is never overwritten. |
| `Store.SeedCopyFailureIsFatal` | Source/DATAStack.swift:99-103 | When a seed copy is needed and fails, opening stops with `CopyPreloadFailed`. |
| `Store.ExclusionFailureIsFatal` | DATAStack/DATAStack.swift:122-129 | If a SQLite store opens under tests, whichever add attempt succeeded, then outside tests a failed backup exclusion is fatal. Under tests, exclusion is never attempted. |
| `Store.DisposableCoordinator` | DATAStack/DATAStack.swift:151-163 | The disposable coordinator is always in-memory and loaded from `.momd`. It exists iff the `.momd` loads and the in-memory store is added. A missing or unloadable `.momd` gives `DisposableModelNotFound`. A failed add gives `DisposableAddStoreFailed`. |
| `Store.DisposableNeedsMomd` | Source/DATAStack.swift:144-146 | A bundle with only a loadable `.mom` serves the main coordinator, but the disposable coordinator is fatal. |
| `Stack.NewStack` | Source/DATAStack.swift:167-182 | A freshly initialised stack has all slots empty and satisfies the slot invariant. |
| `Stack.DefaultConfig` | Source/DATAStack.swift:160-165 | The default initialiser takes the model name from `CFBundleName`, with a SQLite store and no store name. The current revision never fails and uses "" when the name is missing. The older revision fails iff the name is missing. |
| `Stack.DefaultConfigWithoutBundleName` | DATAStack/DATAStack.swift:167-172 | Without a bundle name, the older revision stops the process and the current one uses the model name "". |
| `Stack.GetCoordinator` | Source/DATAStack.swift:62-141 | A filled slot is returned unchanged without consulting the oracle. An empty slot is filled iff opening succeeds. It is then filled with the coordinator `OpenCoordinator` produced, and the stack takes over the file system that opening left behind (seed copy, store file). A failed open stops the process with the same reason `OpenCoordinator` gives. Only the coordinator slot and the file system change. The slot invariant is preserved. |
| `Stack.GetWriter` | Source/DATAStack.swift:44-58 | A filled slot is returned unchanged. An empty slot is filled iff the coordinator getter succeeds. The result is then the stack that getter left, with the new writer in the writer slot, so a filled coordinator slot is kept. A failure keeps the coordinator getter's reason. The new writer is attached to that coordinator, with background confinement and the store-trump merge policy. It has no name and no notification observer. The slot invariant is preserved. |
| `Stack.GetMain` | Source/DATAStack.swift:27-41 | A filled slot is returned unchanged. An empty slot is filled iff the writer getter succeeds. The result is then the stack that getter left, with the new main context in the main slot. A failure keeps the writer getter's reason. The new main context is main-queue confined, uses the store-trump merge policy, and its parent is that writer. It has no name and no notification observer, so its saves are never reset. The slot invariant is preserved. |
| `Stack.GettersIdempotent` | Source/DATAStack.swift:27-58 | Calling a getter again returns the same value and leaves the stack unchanged, whatever the oracle would answer. |
| `Stack.MainIsChildOfWriter` | Source/DATAStack.swift:34 | On a wired stack, main's parent is the writer, and the writer is attached to the slot's coordinator. |
| `Stack.GetDisposableCoordinator` | Source/DATAStack.swift:144-156 | A filled slot is returned unchanged. An empty slot is filled iff `DisposableCoordinator` succeeds. It is then filled with that coordinator, and a failure keeps its fatal reason. Only the disposable slot changes, and it holds an in-memory coordinator. |
| `Stack.NewDisposableMainContext` | Source/DATAStack.swift:213-221 | A disposable context is created iff the disposable coordinator is available; a failure keeps that coordinator's reason. It is unnamed, keeps the default error merge policy, and is main-queue confined, attached to that in-memory coordinator, and reset on will-save. The three main slots are untouched. |
| `Stack.NewBackgroundContext` | Source/DATAStack.swift:224-234 | A background context is created iff the coordinator getter succeeds; a failure keeps the getter's reason. The stack is then exactly what that getter left: writer and main are untouched. The context is attached to the stack's coordinator, not to main. It has background confinement, the store-trump merge policy and the given name, and it merges into main on did-save. |
| `Stack.BackgroundIsSiblingOfWriter` | Source/DATAStack.swift:226 | A background context is attached exactly where the writer is attached. |
| `Stack.PerformInNewBackgroundContext` | Source/DATAStack.swift:237-245 | It succeeds iff `newBackgroundContext()` does, and fails with its reason otherwise. The operation gets exactly that unnamed context. The context is attached to the stack's coordinator with background confinement. The operation runs before the call returns iff testing. |
| `Stack.BackgroundContextDidSave` | DATAStack/DATAStack.swift:203-213 | `SavedOnMainThread` iff on the main thread while not testing. Otherwise it succeeds iff the main getter does, a failure keeps the getter's reason, and the stack is then exactly what that getter left (nothing else changes). The merge runs at once iff testing. |
| `Stack.DropTargets` | Source/DATAStack.swift:343-359 | `drop` looks for three files, the last being the store itself. When the store path has extension `sqlite`, the other two are the store path plus `-shm` and `-wal`, SQLite's own side files. When the store path has no extension, they are the store path plus `.sqlite-shm` and `.sqlite-wal`. |
| `Stack.RemoveIfPresent` | Source/DATAStack.swift:350-357 | An absent file is skipped. A present file is deleted, or reported when its deletion is refused. |
| `Stack.RemoveAll` | Source/DATAStack.swift:350-374 | Exactly the present, removable targets are deleted. The refused ones are reported. One refusal does not stop the others. |
| `Stack.Drop` | Source/DATAStack.swift:339-375 | `drop` succeeds iff the coordinator getter succeeds and the store has a URL. A failed getter gives its own fatal reason, and a store without a URL gives `StoreNotFound`. Afterwards all three slots are empty, and the disposable slot is kept. Of the `-shm`, `-wal` and store files found after the getter ran (a fresh stack opens the store first), exactly the removable ones are deleted and the refused ones are reported. |
| `Stack.DropTargetsOfSQLiteStore` | Source/DATAStack.swift:343-368 | When the base name is a stem, `drop` looks for `<documents>/<base>.sqlite-shm`, `<documents>/<base>.sqlite-wal` and `<documents>/<base>.sqlite`. |
| `Stack.DropTargetsOfUnnamedStore` | Source/DATAStack.swift:343-368 | With an empty base name, `drop` looks for `<documents>/.sqlite.sqlite-shm`, `<documents>/.sqlite.sqlite-wal` and `<documents>/.sqlite`. |
| `Stack.DropOnFreshStackOpensFirst` | Source/DATAStack.swift:340 | On a fresh SQLite stack with no store file, the coordinator getter that `drop` calls creates the store file in the stack's file system. `drop` then succeeds and deletes the file. |
| `Persist.PersistWithCompletion` | Source/DATAStack.swift:250-288 | A failing main-context getter stops the process with its own reason, before any save. Otherwise the trace opens with the main save. The writer save comes second, iff the main save succeeded, and neither stage runs twice. The completion is called exactly once, as the last event. In the current revision, exactly one notification is posted just before it, and the notification agrees with the completion's error. A main-save failure gives that error, on the main context's queue. A writer-save failure gives that error, on the writer's queue. Success gives no error, on the main queue. Under tests every completion runs on the calling thread. The older revision is fatal on either failure and posts nothing. |
| `Persist.InnerCompletion` | Source/DATAStack.swift:251-260 | One notification is posted, then the completion is called with the error on the given queue. The notification is `DidPersist` iff there is no error, and otherwise carries that error. |
| `Persist.WriterFailureCompletesOffMainQueue` | Source/DATAStack.swift:262-274 | Outside tests, a failed writer save completes on the writer's queue, and a successful one on the main queue. |
| `Persist.LegacyPersistIsFatalOnFailure` | DATAStack/DATAStack.swift:232-260 | In the older revision, a failed main save or writer save stops the process. The argument-less completion runs only after both saves succeed. |
| `Persist.EveryPersistCompletesOnce` | Source/DATAStack.swift:250-288 | Any number of back-to-back persist calls give exactly one completion per call. |
| `Scratch.WillSave` | Source/DATAStack.swift:191-195 | The will-save hook of a disposable context discards its pending inserts and leaves the store alone. Other contexts are unchanged. |
| `Scratch.SaveContext` | Source/DATAStack.swift:218 | After a save nothing is pending. A disposable context's store is unchanged by a save. Any other context's store gains the pending inserts. |
| `Scratch.DisposableStoreUnchanged` | Source/DATAStack.swift:213-221 | No sequence of inserts and saves on a disposable context changes its store. |
| `Scratch.DisposableFetchAfterSaveIsEmpty` | Tests/Tests.swift:93-100 | A fresh disposable context fetches nothing after any edits that end in a save. |
| `Scratch.OrdinaryContextKeepsInsert` | Source/DATAStack.swift:191-195 | Insert then save keeps the object in an ordinary context, and loses it in a disposable one. |
| `Lifecycle.Start` | DATAStack/DATAStack.swift:322-341 | A process starts with an empty, valid stack whose test flag is read from the environment once. |
| `Lifecycle.StepStack` | Source/DATAStack.swift:27-375 | An operation is applied only on a revision that has it: `newBackgroundContext(name:)` only on the current one. No operation changes the revision, configuration or test flag. |
| `Lifecycle.StepKeepsValid` | Source/DATAStack.swift:27-58 | Every public operation preserves the slot invariant, and none changes the revision, configuration or test flag. |
| `Lifecycle.RunKeepsValid` | Source/DATAStack.swift:27-375 | After any sequence of operations the revision offers, if the process did not stop: main present implies writer present, which implies coordinator present, with the parent and attachment edges intact. |
| `Lifecycle.RunEndingInDropIsEmpty` | Source/DATAStack.swift:346-348 | Any run that ends in `drop` leaves all three slots empty. |

## Left out

- Core Data semantics: fetch requests, merge-by-property conflict resolution, migration
  options, the undo manager, and `dropEntityCollection` with its batch and fallback
  deletes (Source/DATAStack.swift:293-336). These are wrappers over a library that is
  not part of this model. Saves and opens are oracle outcomes.
- Queue scheduling: `dispatch_async`, the asynchrony of `performBlock:`, the ordering of
  persist calls across queues, and notification-center delivery. The model records on
  which queue a completion runs and whether a hand-off runs before the call returns. It
  executes everything in program order, which is the synchronous test-mode path.
- What a merge into the main context copies. `Stack.BackgroundContextDidSave` models
  only the fatal check, the creation of the main context, and the hand-off mode.
- The file system and URL APIs: `applicationDocumentsDirectory`
  (Source/DATAStack.swift:377-383), the always-present `storeURL.path` (line 92), and
  resource flags. The documents directory is a parameter and the file system is a set of
  paths. Backup exclusion is a flag on the coordinator.
- `deinit` observer removal has no observable effect in the model. The `print`
  diagnostics are left out, except in `drop`: the second result of `Stack.Drop` and
  `Stack.RemoveAll` lists the files whose deletion was refused, which is where
  Source/DATAStack.swift:355, 364 and 372 print.
- Paths.PathExtension: does not model `NSString`'s trailing-slash stripping or its
  special case for a final `..` component (see Assumptions).
- Persist.PersistWithCompletion: the completion is optional in both revisions
  (`completion?(…)`). A `Completed` event stands for that call site, whether or not a
  closure was passed.
- Persist.EveryPersistCompletesOnce: states the exactly-once property for calls that run
  one after another, as they do under tests. Interleaved asynchronous calls are not
  modelled.
- Scratch.WillSave: a context's contents are sets of object identifiers. Attribute
  values, deletions and updates are not modelled.
- The demo and UI-test applications, and the Objective-C headers (declarations only).

=== FILE: lifecycle.dfy ===
/** The stack as a state machine: any sequence of public operations, each
    with the oracle outcomes it needs, applied to a stack. The slot invariant
    holds across every such run. */
module Lifecycle {
  import opened Outcomes
  import opened Store
  import opened Stack
  import opened TestCheck
  import Persist

  datatype Op =
    | ReadCoordinator(o: OpenOracle)
    | ReadWriter(o: OpenOracle)
    | ReadMain(o: OpenOracle)
    | NewBackground(name: Option<string>, o: OpenOracle)
    | PerformInBackground(o: OpenOracle)
    | BackgroundDidSave(onMainThread: bool, o: OpenOracle)
    | NewDisposable(o: OpenOracle)
    | DropStack(o: OpenOracle)
    | PersistStack(o: OpenOracle, mainSave: Persist.SaveResult, writerSave: Persist.SaveResult)

  /** Whether a revision has the operation: `newBackgroundContext(name:)`
      exists only in the current revision. */
  predicate Offers(rev: Revision, op: Op) {
    op.NewBackground? ==> rev == Current
  }

  predicate OffersAll(rev: Revision, ops: seq<Op>) {
    forall i :: 0 <= i < |ops| ==> Offers(rev, ops[i])
  }

  /** The stack a process starts with, its test flag read from the
      environment once. */
  function Start(rev: Revision, config: Config, env: Environment, fs: FileSystem): (s: Stack)
    ensures Empty(s) && Wired(s) && DisposableInMemory(s)
    ensures s.testing == IsTesting(env)
  {
    NewStack(rev, config, IsTesting(env), fs)
  }

  function StepStack(s: Stack, op: Op): (r: Outcome<Stack>)
    requires Offers(s.rev, op)
    ensures r.Done? ==> r.value.rev == s.rev && r.value.config == s.config && r.value.testing == s.testing
  {
    match op
    case ReadCoordinator(o) =>
      var r :- GetCoordinator(s, o); Done(r.0)
    case ReadWriter(o) =>
      var r :- GetWriter(s, o); Done(r.0)
    case ReadMain(o) =>
      var r :- GetMain(s, o); Done(r.0)
    case NewBackground(name, o) =>
      var r :- NewBackgroundContext(s, name, o); Done(r.0)
    case PerformInBackground(o) =>
      var r :- PerformInNewBackgroundContext(s, o); Done(r.0)
    case BackgroundDidSave(onMain, o) =>
      var r :- BackgroundContextDidSave(s, onMain, o); Done(r.0)
    case NewDisposable(o) =>
      var r :- NewDisposableMainContext(s, o); Done(r.0)
    case DropStack(o) =>
      var r :- Drop(s, o); Done(r.0)
    case PersistStack(o, m, w) =>
      var r :- Persist.PersistWithCompletion(s, o, m, w); Done(r.0)
  }

  function Run(s: Stack, ops: seq<Op>): Outcome<Stack>
    requires OffersAll(s.rev, ops)
    decreases |ops|
  {
    if |ops| == 0 then Done(s)
    else
      assert Offers(s.rev, ops[0]);
      var next :- StepStack(s, ops[0]);
      Run(next, ops[1..])
  }

  predicate Valid(s: Stack) {
    Wired(s) && DisposableInMemory(s)
  }

  /** Each operation keeps the invariant, and none changes the revision,
      the configuration or the test flag. */
  lemma StepKeepsValid(s: Stack, op: Op)
    requires Valid(s) && Offers(s.rev, op)
    ensures StepStack(s, op).Done? ==> Valid(StepStack(s, op).value)
    ensures StepStack(s, op).Done? ==>
      var t := StepStack(s, op).value;
      t.rev == s.rev && t.config == s.config && t.testing == s.testing
  {
  }

  /** Main present implies writer present implies coordinator present, with
      main the child of the writer and the writer on the coordinator, after
      any sequence of operations that did not stop the process. */
  lemma {:induction false} RunKeepsValid(s: Stack, ops: seq<Op>)
    requires Valid(s) && OffersAll(s.rev, ops)
    ensures Run(s, ops).Done? ==> Valid(Run(s, ops).value)
    decreases |ops|
  {
    if |ops| > 0 && StepStack(s, ops[0]).Done? {
      StepKeepsValid(s, ops[0]);
      RunKeepsValid(StepStack(s, ops[0]).value, ops[1..]);
    }
  }

  /** A run ending in `drop` leaves all three slots empty, so the next access
      builds a new coordinator. */
  lemma {:induction false} RunEndingInDropIsEmpty(s: Stack, ops: seq<Op>, o: OpenOracle)
    requires OffersAll(s.rev, ops + [DropStack(o)])
    requires Run(s, ops + [DropStack(o)]).Done?
    ensures Empty(Run(s, ops + [DropStack(o)]).value)
    decreases |ops|
  {
    if |ops| == 0 {
      assert ops + [DropStack(o)] == [DropStack(o)];
    } else {
      assert (ops + [DropStack(o)])[1..] == ops[1..] + [DropStack(o)];
      RunEndingInDropIsEmpty(StepStack(s, ops[0]).value, ops[1..], o);
    }
  }
}

=== FILE: outcomes.dfy ===
/** Result types shared by the whole model: optional values, and the
    process-ending `fatalError` path that every unrecoverable failure in the
    stack takes. */
module Outcomes {

  /** Swift's `Optional`. */
  datatype Option<+T> = None | Some(value: T)

  /** One constructor per kind of fatal error the stack stops with. */
  datatype Crash =
    | ModelNotFound             // neither `.mom` nor `.momd` yielded a model
    | AddStoreFailed            // the store could not be added (in-memory, or SQLite after the retry)
    | CopyPreloadFailed         // the bundled seed could not be copied into place
    | RemoveStoreFailed         // the unreadable store file could not be removed
    | ExcludeFromBackupFailed   // the backup-exclusion flag could not be set
    | DisposableModelNotFound   // no loadable `.momd` for the disposable coordinator
    | DisposableAddStoreFailed  // the disposable in-memory store could not be added
    | StoreNotFound             // `drop` found no store URL on the coordinator
    | SavedOnMainThread         // a background context saved on the main thread outside tests
    | MainSaveFailed            // older revision: saving the main context threw
    | WriterSaveFailed          // older revision: saving the writer context threw
    | MissingBundleName         // older revision: the default initialiser found no bundle name

  /** Either the operation completed with `value`, or the process stopped. */
  datatype Outcome<+T> = Done(value: T) | Fatal(reason: Crash) {

    predicate IsFailure() {
      Fatal?
    }

    function PropagateFailure<U>(): Outcome<U>
      requires Fatal?
    {
      Fatal(reason)
    }

    function Extract(): T
      requires Done?
    {
      value
    }
  }
}

=== FILE: paths.dfy ===
/** The two `NSString` path operations the stack relies on: `pathExtension`
    (read by the test-mode check) and `stringByDeletingPathExtension` (read by
    `drop` to find the SQLite side files). The extension of a path is the text
    after the last `.` of its last component, the component being the text
    after the last `/`; a component without a `.` has no extension, and a `.`
    that begins the component (a hidden file such as `.sqlite`) does not start
    one. */
module Paths {
  import opened Outcomes

  /** A string that can be an extension: it holds no `.` and no `/`. */
  predicate IsExtension(s: string) {
    '.' !in s && '/' !in s
  }

  /** A `.` at index `i` of `s` begins a path component. */
  predicate BeginsComponent(s: string, i: int)
    requires 0 <= i < |s|
  {
    i == 0 || s[i - 1] == '/'
  }

  /** A string that `.<ext>` can be appended to without the `.` beginning a
      component: not empty and not ending in `/`. */
  predicate IsStem(s: string) {
    |s| > 0 && s[|s| - 1] != '/'
  }

  /** A directory prefix keeps a stem a stem. */
  lemma StemAfterPrefix(d: string, b: string)
    requires IsStem(b)
    ensures IsStem(d + b)
  {
    assert (d + b)[|d + b| - 1] == b[|b| - 1];
  }

  /** The extension of `s`, or `None` when its last component has no `.`
      other than a leading one. */
  function ExtensionOf(s: string): (r: Option<string>)
    ensures r.Some? ==>
      && |r.value| < |s|
      && s[|s| - |r.value| - 1] == '.'
      && !BeginsComponent(s, |s| - |r.value| - 1)
      && s[|s| - |r.value|..] == r.value
      && IsExtension(r.value)
    ensures r.None? ==>
      forall i :: 0 <= i < |s| && s[i] == '.' ==> '/' in s[i + 1..] || BeginsComponent(s, i)
    decreases |s|
  {
    if |s| == 0 then None
    else if s[|s| - 1] == '.' then
      if BeginsComponent(s, |s| - 1) then None else Some("")
    else if s[|s| - 1] == '/' then None
    else
      match ExtensionOf(s[..|s| - 1])
      case None => None
      case Some(e) => Some(e + [s[|s| - 1]])
  }

  /** `(s as NSString).pathExtension`: the text after the last `.` of the
      last component, or "" when that component has no `.` other than a
      leading one. */
  function PathExtension(s: string): (r: string)
    ensures IsExtension(r)
    ensures r != "" ==>
      && |r| < |s|
      && s[|s| - |r| - 1] == '.'
      && !BeginsComponent(s, |s| - |r| - 1)
      && s[|s| - |r|..] == r
    ensures r == "" ==>
      || (|s| > 1 && s[|s| - 1] == '.' && !BeginsComponent(s, |s| - 1))
      || forall i :: 0 <= i < |s| && s[i] == '.' ==> '/' in s[i + 1..] || BeginsComponent(s, i)
  {
    match ExtensionOf(s)
    case None => ""
    case Some(e) => e
  }

  /** `(s as NSString).stringByDeletingPathExtension`. */
  function DeletingPathExtension(s: string): (r: string)
    ensures ExtensionOf(s).Some? ==> r + "." + PathExtension(s) == s
    ensures ExtensionOf(s).None? ==> r == s
  {
    match ExtensionOf(s)
    case None => s
    case Some(e) =>
      var k := |s| - |e| - 1;
      assert s[..k] + "." + e == s by {
        assert s[k..] == [s[k]] + s[k + 1..];
        assert s == s[..k] + s[k..];
      }
      s[..k]
  }

  /** The extension of `<stem>.<ext>` is `ext`, by induction on `ext`: each
      character of `ext` is read back off the end of the path. */
  lemma {:induction false} ExtensionOfAppended(stem: string, ext: string)
    requires IsStem(stem) && IsExtension(ext)
    ensures ExtensionOf(stem + "." + ext) == Some(ext)
    decreases |ext|
  {
    var s := stem + "." + ext;
    if |ext| == 0 {
      assert s == stem + ".";
      assert s[|s| - 2] == stem[|stem| - 1];
    } else {
      var init := ext[..|ext| - 1];
      var c := ext[|ext| - 1];
      assert ext == init + [c];
      assert IsExtension(init) by {
        assert forall x :: x in init ==> x in ext;
      }
      assert s == (stem + "." + init) + [c];
      assert s[..|s| - 1] == stem + "." + init;
      ExtensionOfAppended(stem, init);
    }
  }

  /** Appending `.ext` to a stem yields a path whose extension is `ext`
      (this is how `<base>.sqlite` and `<bundle>.xctest` are formed). */
  lemma ExtensionOfJoin(stem: string, ext: string)
    requires IsStem(stem) && IsExtension(ext)
    ensures ExtensionOf(stem + "." + ext) == Some(ext)
    ensures PathExtension(stem + "." + ext) == ext
    ensures DeletingPathExtension(stem + "." + ext) == stem
  {
    ExtensionOfAppended(stem, ext);
    var s := stem + "." + ext;
    assert s[..|s| - |ext| - 1] == stem;
  }

  /** Appending `/.ext` to a directory yields a hidden file with no
      extension: deleting the extension leaves it whole. */
  lemma HiddenFileHasNoExtension(dir: string, ext: string)
    requires IsExtension(ext)
    ensures ExtensionOf(dir + "/." + ext) == None
    ensures PathExtension(dir + "/." + ext) == ""
    ensures DeletingPathExtension(dir + "/." + ext) == dir + "/." + ext
  {
    var s := dir + "/." + ext;
    assert s[|dir|] == '/' && s[|dir| + 1] == '.';
    assert s[|dir| + 2..] == ext;
    match ExtensionOf(s)
    case None =>
    case Some(e) =>
      if |e| != |ext| {
        assert false;
      }
      assert false;
  }
}

=== FILE: persist.dfy ===
/** `persistWithCompletion` in both revisions, as sequential control flow.
    Stage 1 saves the main context (promoting its changes into the writer),
    stage 2 saves the writer (the disk commit). The result is the trace of
    what the pipeline does, ending with the completion call, and the queue on
    which that call runs. */
module Persist {
  import opened Outcomes
  import opened Stack
  import opened Store

  /** The oracle outcome of one `save()`; errors are opaque codes. */
  datatype SaveResult = Saved | SaveError(code: nat)

  /** Where the completion runs: on the thread that called `persist` (the
      hand-offs are `performBlockAndWait:` under tests), on the main queue, or
      on the writer's private queue. */
  datatype Queue = CallingThread | MainQueue | WriterQueue

  datatype Notification = DidPersist | DidFailToPersist(error: nat)

  datatype Event =
    | MainSaved(ok: bool)
    | WriterSaved(ok: bool)
    | Posted(note: Notification)
    | Completed(error: Option<nat>, queue: Queue)

  /** The completion runs exactly once, as the last event. */
  predicate CompletesOnceAtEnd(t: seq<Event>) {
    && |t| > 0
    && t[|t| - 1].Completed?
    && forall i :: 0 <= i < |t| - 1 ==> !t[i].Completed?
  }

  /** Exactly one notification is posted, immediately before the completion,
      and it agrees with the completion's error. */
  predicate NotifiesOnceBeforeCompletion(t: seq<Event>) {
    && |t| >= 2
    && t[|t| - 2].Posted?
    && (forall i :: 0 <= i < |t| - 2 ==> !t[i].Posted?)
    && t[|t| - 1].Completed?
    && (t[|t| - 2].note == DidPersist <==> t[|t| - 1].error.None?)
    && (t[|t| - 2].note.DidFailToPersist? ==> t[|t| - 1].error == Some(t[|t| - 2].note.error))
  }

  /** The two stages, in order: the trace opens with the main save, the
      writer save comes second and only after a successful main save, and
      neither stage runs twice. */
  predicate StagesInOrder(t: seq<Event>, mainOk: bool, writerOk: bool) {
    && |t| > 0
    && t[0] == MainSaved(mainOk)
    && (mainOk ==> |t| > 1 && t[1] == WriterSaved(writerOk))
    && (forall i :: 0 < i < |t| ==> !t[i].MainSaved?)
    && (forall i :: 0 <= i < |t| && t[i].WriterSaved? ==> mainOk && i == 1)
  }

  predicate WriterNeverSaved(t: seq<Event>) {
    forall i :: 0 <= i < |t| ==> !t[i].WriterSaved?
  }

  /** The queue a block handed to the main context runs on. */
  function MainContextQueue(testing: bool): Queue {
    if testing then CallingThread else MainQueue
  }

  /** The queue a block handed to the writer context runs on. */
  function WriterContextQueue(testing: bool): Queue {
    if testing then CallingThread else WriterQueue
  }

  /** The current revision's `innerCompletion`: post one notification, then
      call the completion with the error. */
  function InnerCompletion(error: Option<nat>, q: Queue): (r: seq<Event>)
    ensures |r| == 2 && r[0].Posted? && r[1] == Completed(error, q)
    ensures r[0].note == DidPersist <==> error.None?
    ensures error.Some? ==> r[0].note == DidFailToPersist(error.value)
  {
    match error
    case None => [Posted(DidPersist), Completed(None, q)]
    case Some(e) => [Posted(DidFailToPersist(e)), Completed(Some(e), q)]
  }

  /** `persistWithCompletion`. The main-context getter runs first (and may
      open the store). A failed stage 1 completes with its error and never
      saves the writer; a failed stage 2 completes with its error on the
      writer's own queue; success completes with no error, dispatched to the
      main queue outside tests. The older revision stops the process on either
      failure and posts no notification. */
  function PersistWithCompletion(s: Stack, o: OpenOracle, mainSave: SaveResult, writerSave: SaveResult)
    : (r: Outcome<(Stack, seq<Event>)>)
    ensures r.Done? ==> StagesInOrder(r.value.1, mainSave.Saved?, writerSave.Saved?)
    ensures r.Done? ==> CompletesOnceAtEnd(r.value.1)
    ensures r.Done? ==> (r.value.1[|r.value.1| - 1].queue == CallingThread <==> s.testing)
    ensures r.Done? && s.rev == Current ==> NotifiesOnceBeforeCompletion(r.value.1)
    ensures r.Done? && mainSave.SaveError? ==>
      && WriterNeverSaved(r.value.1)
      && r.value.1[|r.value.1| - 1].error == Some(mainSave.code)
    ensures r.Done? && mainSave.Saved? && writerSave.SaveError? ==>
      r.value.1[|r.value.1| - 1] == Completed(Some(writerSave.code), WriterContextQueue(s.testing))
    ensures r.Done? && mainSave.Saved? && writerSave.Saved? ==>
      r.value.1[|r.value.1| - 1] == Completed(None, MainContextQueue(s.testing))
    ensures r.Done? && mainSave.SaveError? ==>
      r.value.1[|r.value.1| - 1].queue == MainContextQueue(s.testing)
    ensures r.Done? && s.rev == Legacy ==>
      && mainSave.Saved? && writerSave.Saved?
      && forall i :: 0 <= i < |r.value.1| ==> !r.value.1[i].Posted?
    ensures GetMain(s, o).Fatal? ==> r == Fatal(GetMain(s, o).reason)
    ensures Wired(s) && GetMain(s, o).Done? ==>
      && (s.rev == Current ==> r.Done?)
      && (s.rev == Legacy ==> (r.Done? <==> mainSave.Saved? && writerSave.Saved?))
      && (r.Done? ==> r.value.0 == GetMain(s, o).value.0)
  {
    var got :- GetMain(s, o);
    match mainSave
    case SaveError(e) =>
      if s.rev == Legacy then Fatal(MainSaveFailed)
      else Done((got.0, [MainSaved(false)] + InnerCompletion(Some(e), MainContextQueue(s.testing))))
    case Saved =>
      var writer :- GetWriter(got.0, o);
      match writerSave
      case SaveError(e) =>
        if s.rev == Legacy then Fatal(WriterSaveFailed)
        else Done((writer.0, [MainSaved(true), WriterSaved(false)] + InnerCompletion(Some(e), WriterContextQueue(s.testing))))
      case Saved =>
        var q := MainContextQueue(s.testing);
        if s.rev == Legacy then Done((writer.0, [MainSaved(true), WriterSaved(true), Completed(None, q)]))
        else Done((writer.0, [MainSaved(true), WriterSaved(true)] + InnerCompletion(None, q)))
  }

  /** Outside tests a failed writer save completes on the writer's private
      queue, while a successful one completes on the main queue. */
  lemma WriterFailureCompletesOffMainQueue(s: Stack, o: OpenOracle, code: nat)
    requires !s.testing && s.rev == Current
    requires Wired(s) && GetMain(s, o).Done?
    ensures PersistWithCompletion(s, o, Saved, SaveError(code)).Done?
    ensures var t := PersistWithCompletion(s, o, Saved, SaveError(code)).value.1;
      t[|t| - 1] == Completed(Some(code), WriterQueue)
    ensures var t := PersistWithCompletion(s, o, Saved, Saved).value.1;
      t[|t| - 1] == Completed(None, MainQueue)
  {
  }

  /** In the older revision a failed save of either context stops the
      process, and the completion runs only after both saves succeeded. */
  lemma LegacyPersistIsFatalOnFailure(s: Stack, o: OpenOracle, code: nat)
    requires s.rev == Legacy && Wired(s) && GetMain(s, o).Done?
    ensures PersistWithCompletion(s, o, SaveError(code), Saved) == Fatal(MainSaveFailed)
    ensures PersistWithCompletion(s, o, Saved, SaveError(code)) == Fatal(WriterSaveFailed)
    ensures PersistWithCompletion(s, o, Saved, Saved).value.1
         == [MainSaved(true), WriterSaved(true), Completed(None, MainContextQueue(s.testing))]
  {
  }

  /** The number of completion calls in a trace. */
  function Completions(t: seq<Event>): nat {
    if |t| == 0 then 0
    else (if t[0].Completed? then 1 else 0) + Completions(t[1..])
  }

  lemma {:induction false} CompletionsAppend(a: seq<Event>, b: seq<Event>)
    ensures Completions(a + b) == Completions(a) + Completions(b)
    decreases |a|
  {
    if |a| == 0 {
      assert a + b == b;
    } else {
      assert (a + b)[1..] == a[1..] + b;
      CompletionsAppend(a[1..], b);
    }
  }

  lemma {:induction false} CompletesOnceCountsOne(t: seq<Event>)
    requires CompletesOnceAtEnd(t)
    ensures Completions(t) == 1
    decreases |t|
  {
    if |t| == 1 {
      assert Completions(t[1..]) == 0;
    } else {
      assert !t[0].Completed?;
      CompletesOnceCountsOne(t[1..]);
    }
  }

  /** The outcomes of one `persist` call. */
  datatype PersistCall = PersistCall(o: OpenOracle, mainSave: SaveResult, writerSave: SaveResult)

  /** Back-to-back persist calls under tests: each runs to completion before
      the next starts, so their traces concatenate in call order. */
  function PersistAll(s: Stack, calls: seq<PersistCall>): Outcome<(Stack, seq<Event>)>
    decreases |calls|
  {
    if |calls| == 0 then Done((s, []))
    else
      var first :- PersistWithCompletion(s, calls[0].o, calls[0].mainSave, calls[0].writerSave);
      var rest :- PersistAll(first.0, calls[1..]);
      Done((rest.0, first.1 + rest.1))
  }

  /** However many persist calls are made, each calls its completion exactly
      once: the joint trace holds one completion per call. */
  lemma {:induction false} EveryPersistCompletesOnce(s: Stack, calls: seq<PersistCall>)
    requires PersistAll(s, calls).Done?
    ensures Completions(PersistAll(s, calls).value.1) == |calls|
    decreases |calls|
  {
    if |calls| > 0 {
      var first := PersistWithCompletion(s, calls[0].o, calls[0].mainSave, calls[0].writerSave).value;
      var rest := PersistAll(first.0, calls[1..]).value;
      CompletesOnceCountsOne(first.1);
      EveryPersistCompletesOnce(first.0, calls[1..]);
      CompletionsAppend(first.1, rest.1);
    }
  }
}

=== FILE: scratch.dfy ===
/** What a context holds, just enough to state the point of the disposable
    context: the will-save hook resets it, so nothing pending ever reaches its
    private in-memory store, and a fetch after a save finds nothing. */
module Scratch {
  import opened Stack

  type Object = nat

  /** Objects inserted since the last save, and objects in the store the
      context is attached to. */
  datatype Contents = Contents(pending: set<Object>, stored: set<Object>)

  datatype Edit = Insert(obj: Object) | Save

  const Blank := Contents({}, {})

  /** A fetch sees the store and the context's own pending inserts. */
  function Fetch(c: Contents): set<Object> {
    c.stored + c.pending
  }

  /** The will-save observers of a context; `newDisposableMainContextWillSave`
      calls `reset()`, which discards the pending inserts. */
  function WillSave(c: Contents, observer: Observer): (r: Contents)
    ensures r.stored == c.stored
    ensures observer == ResetOnWillSave ==> r.pending == {}
    ensures observer != ResetOnWillSave ==> r == c
  {
    if observer == ResetOnWillSave then c.(pending := {}) else c
  }

  /** `save()`: the will-save notification first, then whatever is still
      pending is committed. */
  function SaveContext(c: Contents, observer: Observer): (r: Contents)
    ensures r.pending == {}
    ensures observer == ResetOnWillSave ==> r.stored == c.stored
    ensures observer != ResetOnWillSave ==> r.stored == c.stored + c.pending
  {
    var ready := WillSave(c, observer);
    Contents({}, ready.stored + ready.pending)
  }

  function Apply(c: Contents, observer: Observer, e: Edit): Contents {
    match e
    case Insert(x) => c.(pending := c.pending + {x})
    case Save => SaveContext(c, observer)
  }

  function ApplyAll(c: Contents, observer: Observer, edits: seq<Edit>): Contents
    decreases |edits|
  {
    if |edits| == 0 then c else ApplyAll(Apply(c, observer, edits[0]), observer, edits[1..])
  }

  /** Whatever is inserted and saved through a context reset on will-save,
      its store never changes. */
  lemma {:induction false} DisposableStoreUnchanged(c: Contents, edits: seq<Edit>)
    ensures ApplyAll(c, ResetOnWillSave, edits).stored == c.stored
    decreases |edits|
  {
    if |edits| > 0 {
      DisposableStoreUnchanged(Apply(c, ResetOnWillSave, edits[0]), edits[1..]);
    }
  }

  lemma {:induction false} ApplyAllAppend(c: Contents, observer: Observer, a: seq<Edit>, b: seq<Edit>)
    ensures ApplyAll(c, observer, a + b) == ApplyAll(ApplyAll(c, observer, a), observer, b)
    decreases |a|
  {
    if |a| == 0 {
      assert a + b == b;
    } else {
      assert (a + b)[1..] == a[1..] + b;
      ApplyAllAppend(Apply(c, observer, a[0]), observer, a[1..], b);
    }
  }

  /** A fresh disposable context, after any edits ending in a save, fetches
      nothing. */
  lemma DisposableFetchAfterSaveIsEmpty(edits: seq<Edit>)
    ensures Fetch(ApplyAll(Blank, ResetOnWillSave, edits + [Save])) == {}
  {
    ApplyAllAppend(Blank, ResetOnWillSave, edits, [Save]);
    DisposableStoreUnchanged(Blank, edits);
    var before := ApplyAll(Blank, ResetOnWillSave, edits);
    assert ApplyAll(before, ResetOnWillSave, [Save]) == SaveContext(before, ResetOnWillSave);
  }

  /** The same insert and save through a context without the hook does reach
      its store: the reset is what makes the disposable context disposable. */
  lemma OrdinaryContextKeepsInsert(x: Object)
    ensures Fetch(ApplyAll(Blank, NoObserver, [Insert(x), Save])) == {x}
    ensures Fetch(ApplyAll(Blank, ResetOnWillSave, [Insert(x), Save])) == {}
  {
    var edits := [Insert(x), Save];
    assert edits[1..] == [Save];
    assert edits[1..][1..] == [];
    var inserted := Contents({x}, {});
    assert ApplyAll(Blank, NoObserver, edits) == ApplyAll(inserted, NoObserver, [Save]);
    assert ApplyAll(inserted, NoObserver, [Save]) == SaveContext(inserted, NoObserver);
    assert ApplyAll(Blank, ResetOnWillSave, edits) == ApplyAll(inserted, ResetOnWillSave, [Save]);
    assert ApplyAll(inserted, ResetOnWillSave, [Save]) == SaveContext(inserted, ResetOnWillSave);
  }
}

=== FILE: stack.dfy ===
/** The stack itself: three lazily created slots (coordinator, writer, main),
    the lazily created disposable coordinator, and the operations that read
    or reset them. Every operation is a pure transition from one stack value
    to the next, driven by oracle outcomes for the store opening. */
module Stack {
  import opened Outcomes
  import opened Store
  import opened TestCheck
  import Paths

  /** The two revisions of the stack: `Current` is Source/DATAStack.swift,
      `Legacy` is DATAStack/DATAStack.swift. */
  datatype Revision = Current | Legacy

  datatype MergePolicy = MergeByPropertyStoreTrump | ErrorMerge

  /** The observer a context is registered with at creation. */
  datatype Observer = NoObserver | ResetOnWillSave | MergeIntoMainOnDidSave

  /** Where a context's saves go: straight to a coordinator, or to a parent
      context. */
  datatype Attachment = ToCoordinator(coordinator: Coordinator) | ToParent(parent: Context)

  datatype Context = Context(
    concurrency: ConcurrencyType,
    attachment: Attachment,
    mergePolicy: MergePolicy,
    name: Option<string>,
    observer: Observer)

  datatype Stack = Stack(
    rev: Revision,
    config: Config,
    testing: bool,
    coordinator: Option<Coordinator>,
    writer: Option<Context>,
    main: Option<Context>,
    disposable: Option<Coordinator>,
    fs: FileSystem)

  /** The slot invariant: main present implies writer present implies
      coordinator present; main is the child of the writer, and the writer is
      attached to the coordinator. */
  predicate Wired(s: Stack) {
    && (s.main.Some? ==> s.writer.Some? && s.main.value.attachment == ToParent(s.writer.value))
    && (s.writer.Some? ==> s.coordinator.Some? && s.writer.value.attachment == ToCoordinator(s.coordinator.value))
  }

  /** The disposable slot, once filled, holds an in-memory coordinator. */
  predicate DisposableInMemory(s: Stack) {
    s.disposable.Some? ==> s.disposable.value.storeType == InMemory
  }

  predicate Empty(s: Stack) {
    s.coordinator.None? && s.writer.None? && s.main.None?
  }

  /** A freshly initialised stack: nothing is created until first access. */
  function NewStack(rev: Revision, config: Config, testing: bool, fs: FileSystem): (s: Stack)
    ensures Empty(s) && Wired(s) && s.disposable.None?
    ensures s.config == config && s.fs == fs && s.testing == testing
  {
    Stack(rev, config, testing, None, None, None, None, fs)
  }

  /** The argument-less initialiser: the model name is the main bundle's
      `CFBundleName`. The current revision keeps an empty name when there is
      none; the older one force-unwraps it. */
  function DefaultConfig(rev: Revision, mainBundle: Bundle): (r: Outcome<Config>)
    ensures rev == Current ==> r.Done?
    ensures rev == Legacy ==> (r.Done? <==> mainBundle.bundleName.Some?)
    ensures r.Done? ==>
      && r.value.bundle == mainBundle
      && r.value.storeType == SQLite
      && r.value.storeName == None
      && r.value.modelName == (if mainBundle.bundleName.Some? then mainBundle.bundleName.value else "")
  {
    match mainBundle.bundleName
    case Some(n) => Done(Config(n, mainBundle, SQLite, None))
    case None =>
      if rev == Current then Done(Config("", mainBundle, SQLite, None)) else Fatal(MissingBundleName)
  }

  /** Without a bundle name the older revision's default initialiser stops
      the process, while the current one names the model "". */
  lemma DefaultConfigWithoutBundleName(mainBundle: Bundle)
    requires mainBundle.bundleName.None?
    ensures DefaultConfig(Legacy, mainBundle) == Fatal(MissingBundleName)
    ensures DefaultConfig(Current, mainBundle).Done? && DefaultConfig(Current, mainBundle).value.modelName == ""
  {
  }

  /** The `persistentStoreCoordinator` getter. */
  function GetCoordinator(s: Stack, o: OpenOracle): (r: Outcome<(Stack, Coordinator)>)
    ensures s.coordinator.Some? ==> r == Done((s, s.coordinator.value))
    ensures s.coordinator.None? ==> (r.Done? <==> OpenCoordinator(s.config, s.testing, s.fs, o).Done?)
    ensures s.coordinator.None? && r.Done? ==>
      var op := OpenCoordinator(s.config, s.testing, s.fs, o).value;
      r.value.1 == op.coordinator && r.value.0.fs == op.fs
    ensures s.coordinator.None? && r.Fatal? ==> r == Fatal(OpenCoordinator(s.config, s.testing, s.fs, o).reason)
    ensures r.Done? ==>
      && r.value.0.coordinator == Some(r.value.1)
      && r.value.0 == s.(coordinator := r.value.0.coordinator, fs := r.value.0.fs)
    ensures r.Done? && Wired(s) ==> Wired(r.value.0)
  {
    match s.coordinator
    case Some(c) => Done((s, c))
    case None =>
      var op :- OpenCoordinator(s.config, s.testing, s.fs, o);
      Done((s.(coordinator := Some(op.coordinator), fs := op.fs), op.coordinator))
  }

  /** The `writerContext` getter: a context attached to the coordinator,
      confined as background contexts are. */
  function GetWriter(s: Stack, o: OpenOracle): (r: Outcome<(Stack, Context)>)
    ensures s.writer.Some? ==> r == Done((s, s.writer.value))
    ensures s.writer.None? ==> (r.Done? <==> GetCoordinator(s, o).Done?)
    ensures r.Done? && s.writer.None? ==> r.value.0 == GetCoordinator(s, o).value.0.(writer := Some(r.value.1))
    ensures s.writer.None? && r.Fatal? ==> r == Fatal(GetCoordinator(s, o).reason)
    ensures r.Done? ==>
      && r.value.0.writer == Some(r.value.1)
      && r.value.0 == s.(coordinator := r.value.0.coordinator, writer := r.value.0.writer, fs := r.value.0.fs)
    ensures r.Done? && Wired(s) ==> r.value.0.coordinator.Some?
    ensures r.Done? && s.writer.None? ==>
      && r.value.0.coordinator.Some?
      && r.value.1.attachment == ToCoordinator(r.value.0.coordinator.value)
      && r.value.1.concurrency == BackgroundConcurrencyType(s.testing)
      && r.value.1.mergePolicy == MergeByPropertyStoreTrump
      && r.value.1.name == None
      && r.value.1.observer == NoObserver
    ensures r.Done? && Wired(s) ==> Wired(r.value.0)
  {
    match s.writer
    case Some(w) => Done((s, w))
    case None =>
      var got :- GetCoordinator(s, o);
      var w := Context(BackgroundConcurrencyType(s.testing), ToCoordinator(got.1), MergeByPropertyStoreTrump, None, NoObserver);
      Done((got.0.(writer := Some(w)), w))
  }

  /** The `mainContext` getter: a main-queue context whose parent is the
      writer. */
  function GetMain(s: Stack, o: OpenOracle): (r: Outcome<(Stack, Context)>)
    ensures s.main.Some? ==> r == Done((s, s.main.value))
    ensures s.main.None? ==> (r.Done? <==> GetWriter(s, o).Done?)
    ensures r.Done? && s.main.None? ==> r.value.0 == GetWriter(s, o).value.0.(main := Some(r.value.1))
    ensures s.main.None? && r.Fatal? ==> r == Fatal(GetWriter(s, o).reason)
    ensures r.Done? ==>
      && r.value.0.main == Some(r.value.1)
      && r.value.0 == s.(coordinator := r.value.0.coordinator, writer := r.value.0.writer,
                         main := r.value.0.main, fs := r.value.0.fs)
    ensures r.Done? && Wired(s) ==> r.value.0.writer.Some? && r.value.0.coordinator.Some?
    ensures r.Done? && s.main.None? ==>
      && r.value.0.writer.Some?
      && r.value.1.attachment == ToParent(r.value.0.writer.value)
      && r.value.1.concurrency == MainQueueConcurrency
      && r.value.1.mergePolicy == MergeByPropertyStoreTrump
      && r.value.1.name == None
      && r.value.1.observer == NoObserver
    ensures r.Done? && Wired(s) ==> Wired(r.value.0)
  {
    match s.main
    case Some(m) => Done((s, m))
    case None =>
      var got :- GetWriter(s, o);
      var m := Context(MainQueueConcurrency, ToParent(got.1), MergeByPropertyStoreTrump, None, NoObserver);
      Done((got.0.(main := Some(m)), m))
  }

  /** The getters cache: a second access, whatever the oracle would answer,
      returns the same context and leaves the stack unchanged. */
  lemma {:induction false} GettersIdempotent(s: Stack, o1: OpenOracle, o2: OpenOracle)
    ensures GetCoordinator(s, o1).Done? ==>
      GetCoordinator(GetCoordinator(s, o1).value.0, o2) == GetCoordinator(s, o1)
    ensures GetWriter(s, o1).Done? ==>
      GetWriter(GetWriter(s, o1).value.0, o2) == GetWriter(s, o1)
    ensures GetMain(s, o1).Done? ==>
      GetMain(GetMain(s, o1).value.0, o2) == GetMain(s, o1)
  {
  }

  /** On a wired stack the main context's parent is the writer, and the
      writer's coordinator is the coordinator in the slot. */
  lemma MainIsChildOfWriter(s: Stack, o: OpenOracle)
    requires Wired(s)
    requires GetMain(s, o).Done?
    ensures GetMain(s, o).value.1.attachment == ToParent(GetMain(s, o).value.0.writer.value)
    ensures GetMain(s, o).value.0.writer.value.attachment
         == ToCoordinator(GetMain(s, o).value.0.coordinator.value)
  {
  }

  /** The `disposablePersistentStoreCoordinator` lazy property. */
  function GetDisposableCoordinator(s: Stack, o: OpenOracle): (r: Outcome<(Stack, Coordinator)>)
    ensures s.disposable.Some? ==> r == Done((s, s.disposable.value))
    ensures s.disposable.None? ==> (r.Done? <==> DisposableCoordinator(s.config, o).Done?)
    ensures s.disposable.None? && r.Done? ==> r.value.1 == DisposableCoordinator(s.config, o).value
    ensures s.disposable.None? && r.Fatal? ==> r.reason == DisposableCoordinator(s.config, o).reason
    ensures r.Done? ==> r.value.0 == s.(disposable := Some(r.value.1))
    ensures r.Done? && DisposableInMemory(s) ==> r.value.1.storeType == InMemory
  {
    match s.disposable
    case Some(c) => Done((s, c))
    case None =>
      var c :- DisposableCoordinator(s.config, o);
      Done((s.(disposable := Some(c)), c))
  }

  /** `newDisposableMainContext()`: a main-queue context on the disposable
      in-memory coordinator, reset on every will-save. It never touches the
      three slots of the stack. */
  function NewDisposableMainContext(s: Stack, o: OpenOracle): (r: Outcome<(Stack, Context)>)
    ensures r.Done? <==> GetDisposableCoordinator(s, o).Done?
    ensures r.Fatal? ==> r == Fatal(GetDisposableCoordinator(s, o).reason)
    ensures r.Done? ==>
      && r.value.0 == s.(disposable := r.value.0.disposable)
      && r.value.0.disposable.Some?
      && r.value.1.attachment == ToCoordinator(r.value.0.disposable.value)
      && r.value.1.concurrency == MainQueueConcurrency
      && r.value.1.observer == ResetOnWillSave
      && r.value.1.mergePolicy == ErrorMerge
      && r.value.1.name == None
    ensures r.Done? && DisposableInMemory(s) ==>
      DisposableInMemory(r.value.0) && r.value.1.attachment.coordinator.storeType == InMemory
  {
    var got :- GetDisposableCoordinator(s, o);
    Done((got.0, Context(MainQueueConcurrency, ToCoordinator(got.1), ErrorMerge, None, ResetOnWillSave)))
  }

  /** `newBackgroundContext(name:)`: a sibling of the writer, attached to the
      same coordinator, registered to merge into main on did-save. Only the
      coordinator slot may be created. */
  function NewBackgroundContext(s: Stack, name: Option<string>, o: OpenOracle): (r: Outcome<(Stack, Context)>)
    ensures r.Done? <==> GetCoordinator(s, o).Done?
    ensures r.Fatal? ==> r == Fatal(GetCoordinator(s, o).reason)
    ensures r.Done? ==> r.value.0 == GetCoordinator(s, o).value.0
    ensures r.Done? ==>
      && r.value.0.coordinator.Some?
      && r.value.0 == s.(coordinator := r.value.0.coordinator, fs := r.value.0.fs)
      && r.value.1.attachment == ToCoordinator(r.value.0.coordinator.value)
      && r.value.1.concurrency == BackgroundConcurrencyType(s.testing)
      && r.value.1.name == name
      && r.value.1.mergePolicy == MergeByPropertyStoreTrump
      && r.value.1.observer == MergeIntoMainOnDidSave
    ensures r.Done? && Wired(s) ==> Wired(r.value.0)
  {
    var got :- GetCoordinator(s, o);
    Done((got.0, Context(BackgroundConcurrencyType(s.testing), ToCoordinator(got.1), MergeByPropertyStoreTrump, name, MergeIntoMainOnDidSave)))
  }

  /** A background context and the writer share one coordinator; the
      background context is not a child of main. */
  lemma BackgroundIsSiblingOfWriter(s: Stack, name: Option<string>, o: OpenOracle)
    requires Wired(s) && s.writer.Some?
    requires NewBackgroundContext(s, name, o).Done?
    ensures NewBackgroundContext(s, name, o).value.1.attachment == s.writer.value.attachment
  {
  }

  /** `performInNewBackgroundContext`: a new unnamed background context, and
      the mode in which the operation is handed to it. */
  function PerformInNewBackgroundContext(s: Stack, o: OpenOracle): (r: Outcome<(Stack, Context, PerformMode)>)
    ensures r.Done? <==> NewBackgroundContext(s, None, o).Done?
    ensures r.Fatal? ==> r == Fatal(NewBackgroundContext(s, None, o).reason)
    ensures r.Done? ==>
      && r.value.0 == NewBackgroundContext(s, None, o).value.0
      && r.value.1 == NewBackgroundContext(s, None, o).value.1
      && r.value.1.attachment == ToCoordinator(r.value.0.coordinator.value)
      && r.value.1.concurrency == BackgroundConcurrencyType(s.testing)
    ensures r.Done? ==>
      && r.value.1.name == None
      && r.value.1.observer == MergeIntoMainOnDidSave
      && (r.value.2.RunsBeforeReturn() <==> s.testing)
      && r.value.0.writer == s.writer && r.value.0.main == s.main
  {
    var made :- NewBackgroundContext(s, None, o);
    Done((made.0, made.1, PerformSelectorForBackgroundContext(s.testing)))
  }

  /** `backgroundContextDidSave`: fatal on the main thread outside tests;
      otherwise the main context (created if need be) is handed a merge, run
      at once under tests and enqueued otherwise. */
  function BackgroundContextDidSave(s: Stack, onMainThread: bool, o: OpenOracle): (r: Outcome<(Stack, PerformMode)>)
    ensures r == Fatal(SavedOnMainThread) <==> onMainThread && !s.testing
    ensures !(onMainThread && !s.testing) ==> (r.Done? <==> GetMain(s, o).Done?)
    ensures !(onMainThread && !s.testing) && r.Fatal? ==> r == Fatal(GetMain(s, o).reason)
    ensures r.Done? ==> r.value.0 == GetMain(s, o).value.0
    ensures r.Done? ==>
      && r.value.0.main.Some?
      && (r.value.1.RunsBeforeReturn() <==> s.testing)
    ensures r.Done? && Wired(s) ==> Wired(r.value.0)
  {
    if onMainThread && !s.testing then Fatal(SavedOnMainThread)
    else
      var got :- GetMain(s, o);
      Done((got.0, PerformSelectorForBackgroundContext(s.testing)))
  }

  /** The three files `drop` looks for, derived from the store path: the
      shared-memory file, the write-ahead log, and the store itself. */
  function DropTargets(storePath: string): (r: seq<string>)
    ensures |r| == 3 && r[2] == storePath
    ensures Paths.ExtensionOf(storePath) == Some(SQLiteExtension) ==>
      r[0] == storePath + "-shm" && r[1] == storePath + "-wal"
    ensures Paths.ExtensionOf(storePath).None? ==>
      r[0] == storePath + ".sqlite-shm" && r[1] == storePath + ".sqlite-wal"
  {
    var base := Paths.DeletingPathExtension(storePath);
    [base + ".sqlite-shm", base + ".sqlite-wal", storePath]
  }

  /** Best-effort removal: an absent file is skipped, a refused removal is
      reported and does not stop the caller. */
  function RemoveIfPresent(fs: FileSystem, path: string): (r: (FileSystem, seq<string>))
    ensures r.0 == fs.(files := if path in fs.files && path !in fs.unremovable then fs.files - {path} else fs.files)
    ensures r.1 == (if path in fs.files && path in fs.unremovable then [path] else [])
  {
    if path !in fs.files then (fs, [])
    else
      match RemoveFile(fs, path)
      case None => (fs, [path])
      case Some(fs') => (fs', [])
  }

  /** Deleting each target in turn. The result lists the targets whose
      removal was refused. */
  function RemoveAll(fs: FileSystem, paths: seq<string>): (r: (FileSystem, seq<string>))
    ensures r.0.documents == fs.documents && r.0.unremovable == fs.unremovable
    ensures forall p :: p in r.0.files <==> p in fs.files && (p !in paths || p in fs.unremovable)
    ensures forall p :: p in r.1 <==> p in paths && p in fs.files && p in fs.unremovable
    ensures |r.1| <= |paths|
    decreases |paths|
  {
    if |paths| == 0 then (fs, [])
    else
      var first := RemoveIfPresent(fs, paths[0]);
      var rest := RemoveAll(first.0, paths[1..]);
      assert forall p :: p in paths <==> p == paths[0] || p in paths[1..];
      (rest.0, first.1 + rest.1)
  }

  /** `drop()`: reads the coordinator first (opening the store when the stack
      is fresh), clears the three slots, then deletes the `-shm`, `-wal` and
      store files, each only when present and each best-effort. */
  function Drop(s: Stack, o: OpenOracle): (r: Outcome<(Stack, seq<string>)>)
    ensures r.Done? <==> GetCoordinator(s, o).Done? && GetCoordinator(s, o).value.1.storeURL.Some?
    ensures GetCoordinator(s, o).Fatal? ==> r == Fatal(GetCoordinator(s, o).reason)
    ensures GetCoordinator(s, o).Done? && GetCoordinator(s, o).value.1.storeURL.None? ==>
      r == Fatal(StoreNotFound)
    ensures r.Done? ==>
      && Empty(r.value.0) && Wired(r.value.0)
      && r.value.0.disposable == s.disposable
      && r.value.0.rev == s.rev && r.value.0.config == s.config && r.value.0.testing == s.testing
    ensures r.Done? ==>
      var got := GetCoordinator(s, o).value;
      var targets := DropTargets(got.1.storeURL.value);
      && r.value.0.fs.documents == s.fs.documents
      && r.value.0.fs.unremovable == s.fs.unremovable
      && (forall p :: p in r.value.0.fs.files <==> p in got.0.fs.files && (p !in targets || p in s.fs.unremovable))
      && (forall p :: p in r.value.1 <==> p in targets && p in got.0.fs.files && p in s.fs.unremovable)
  {
    var got :- GetCoordinator(s, o);
    match got.1.storeURL
    case None => Fatal(StoreNotFound)
    case Some(storePath) =>
      var cleared := got.0.(coordinator := None, writer := None, main := None);
      var removed := RemoveAll(cleared.fs, DropTargets(storePath));
      Done((cleared.(fs := removed.0), removed.1))
  }

  /** For a SQLite store the targets are `<base>.sqlite-shm`,
      `<base>.sqlite-wal` and `<base>.sqlite` in the documents directory,
      `<base>` being the store name or else the model name. */
  lemma DropTargetsOfSQLiteStore(fs: FileSystem, cfg: Config)
    requires Paths.IsStem(StoreBaseName(cfg))
    ensures DropTargets(StorePath(fs, cfg)) == [
      fs.documents + "/" + StoreBaseName(cfg) + ".sqlite-shm",
      fs.documents + "/" + StoreBaseName(cfg) + ".sqlite-wal",
      fs.documents + "/" + StoreBaseName(cfg) + "." + SQLiteExtension]
  {
    StorePathShape(fs, cfg);
    StorePathStem(fs, cfg);
  }

  /** With an empty base name (the current revision's default initialiser on
      a bundle without `CFBundleName`) the store is the hidden
      `<documents>/.sqlite`, which has no extension, so `drop` looks for
      `<documents>/.sqlite.sqlite-shm` and `<documents>/.sqlite.sqlite-wal`. */
  lemma DropTargetsOfUnnamedStore(fs: FileSystem, cfg: Config)
    requires StoreBaseName(cfg) == ""
    ensures DropTargets(StorePath(fs, cfg)) == [
      fs.documents + "/." + SQLiteExtension + ".sqlite-shm",
      fs.documents + "/." + SQLiteExtension + ".sqlite-wal",
      fs.documents + "/." + SQLiteExtension]
  {
    UnnamedStorePathHasNoStem(fs, cfg);
  }

  /** On a fresh SQLite stack whose store file is absent, `drop` first
      creates the store (copying the seed when bundled) and then deletes it:
      the call leaves no store file behind but has opened one. */
  lemma DropOnFreshStackOpensFirst(s: Stack, o: OpenOracle)
    requires Empty(s) && s.config.storeType == SQLite
    requires ResolveModel(s.config.bundle, s.config.modelName).Some?
    requires StorePath(s.fs, s.config) !in s.fs.files && StorePath(s.fs, s.config) !in s.fs.unremovable
    requires !HasSeed(s.config) || o.copySeedOk
    requires o.firstAddOk && (s.testing || o.excludeOk)
    ensures OpenCoordinator(s.config, s.testing, s.fs, o).Done?
    ensures StorePath(s.fs, s.config) in OpenCoordinator(s.config, s.testing, s.fs, o).value.fs.files
    ensures StorePath(s.fs, s.config) in GetCoordinator(s, o).value.0.fs.files
    ensures Drop(s, o).Done?
    ensures StorePath(s.fs, s.config) !in Drop(s, o).value.0.fs.files
  {
  }
}

=== FILE: store.dfy ===
/** The store-opening policy of the `persistentStoreCoordinator` getter and of
    the lazy `disposablePersistentStoreCoordinator`. Every Core Data and file
    manager call is replaced by an oracle outcome; the file system is an
    abstract set of existing paths. */
module Store {
  import opened Outcomes
  import Paths

  datatype StoreType = InMemory | SQLite

  /** A bundle: the resource files it ships (`<name>.<ext>`), those among them
      whose contents do not load as a managed object model, and the
      `CFBundleName` entry of its info dictionary. */
  datatype Bundle = Bundle(resources: set<string>, unreadable: set<string>, bundleName: Option<string>)

  /** What a stack is constructed with. */
  datatype Config = Config(modelName: string, bundle: Bundle, storeType: StoreType, storeName: Option<string>)

  /** The resource a model was loaded from. */
  datatype ModelSource = Mom | Momd

  /** The documents directory, the paths that exist, and the paths whose
      removal the file manager refuses. */
  datatype FileSystem = FileSystem(documents: string, files: set<string>, unremovable: set<string>)

  /** A coordinator with its one persistent store. `storeURL` is the path of
      that store as reported by `persistentStores.last.URL.path`. */
  datatype Coordinator = Coordinator(
    model: ModelSource,
    storeType: StoreType,
    storeURL: Option<string>,
    backupExcluded: bool)

  /** Outcomes of the calls the opening policy makes into Core Data and the
      file manager, in the order it may make them. `memoryStoreURL` is the URL
      Core Data gives an in-memory store. */
  datatype OpenOracle = OpenOracle(
    copySeedOk: bool,
    firstAddOk: bool,
    retryAddOk: bool,
    excludeOk: bool,
    memoryAddOk: bool,
    memoryStoreURL: Option<string>)

  /** A successful side effect of opening, in order. Failed effects are fatal
      and so never logged. */
  datatype Step = CopiedSeed | AddStoreAttempt(ok: bool) | RemovedStore | ExcludedFromBackup

  datatype Opened = Opened(coordinator: Coordinator, fs: FileSystem, log: seq<Step>)

  const SQLiteExtension: string := "sqlite"

  function ResourceName(name: string, ext: string): string {
    name + "." + ext
  }

  predicate HasResource(b: Bundle, name: string, ext: string) {
    ResourceName(name, ext) in b.resources
  }

  predicate Loads(b: Bundle, name: string, ext: string) {
    HasResource(b, name, ext) && ResourceName(name, ext) !in b.unreadable
  }

  /** `NSManagedObjectModel(contentsOfURL:)` on an existing resource. */
  function LoadModel(b: Bundle, name: string, ext: string, source: ModelSource): Option<ModelSource> {
    if ResourceName(name, ext) in b.unreadable then None else Some(source)
  }

  /** The model lookup: a `.momd` is loaded when present, then a `.mom`, when
      present, replaces it — even by nothing, when the `.mom` does not load. */
  function ResolveModel(b: Bundle, name: string): (r: Option<ModelSource>)
    ensures r == Some(Mom) <==> Loads(b, name, "mom")
    ensures r == Some(Momd) <==> !HasResource(b, name, "mom") && Loads(b, name, "momd")
    ensures r == None <==>
      if HasResource(b, name, "mom") then !Loads(b, name, "mom") else !Loads(b, name, "momd")
  {
    var fromMomd := if HasResource(b, name, "momd") then LoadModel(b, name, "momd", Momd) else None;
    if HasResource(b, name, "mom") then LoadModel(b, name, "mom", Mom) else fromMomd
  }

  /** A `.mom` that does not load shadows a `.momd` that would: construction
      is then fatal although a model is available. */
  lemma UnreadableMomShadowsMomd(b: Bundle, name: string)
    requires Loads(b, name, "momd")
    requires HasResource(b, name, "mom") && !Loads(b, name, "mom")
    ensures ResolveModel(b, name) == None
  {
  }

  /** The base name of the SQLite file: the store name when one was given,
      otherwise the model name. */
  function StoreBaseName(cfg: Config): string {
    match cfg.storeName
    case Some(n) => n
    case None => cfg.modelName
  }

  /** `(storeName ?? modelName) + ".sqlite"`. Its extension is `sqlite`
      unless the base name is empty, in which case the file is the hidden
      `.sqlite`. */
  function StoreFileName(cfg: Config): (r: string)
    ensures Paths.IsStem(StoreBaseName(cfg)) ==>
      && Paths.PathExtension(r) == SQLiteExtension
      && Paths.DeletingPathExtension(r) == StoreBaseName(cfg)
    ensures StoreBaseName(cfg) == "" ==> r == "." + SQLiteExtension
  {
    var base := StoreBaseName(cfg);
    var r := ResourceName(base, SQLiteExtension);
    assert Paths.IsStem(base) ==>
      Paths.PathExtension(r) == SQLiteExtension && Paths.DeletingPathExtension(r) == base
    by {
      if Paths.IsStem(base) {
        Paths.ExtensionOfJoin(base, SQLiteExtension);
      }
    }
    r
  }

  /** The store file inside the documents directory. */
  function StorePath(fs: FileSystem, cfg: Config): (r: string)
    ensures |r| == |fs.documents| + 1 + |StoreFileName(cfg)|
    ensures r[..|fs.documents| + 1] == fs.documents + "/"
    ensures r[|fs.documents| + 1..] == StoreFileName(cfg)
  {
    fs.documents + "/" + StoreFileName(cfg)
  }

  /** The store path is `<documents>/<base>.sqlite`. */
  lemma StorePathShape(fs: FileSystem, cfg: Config)
    ensures StorePath(fs, cfg) == fs.documents + "/" + StoreBaseName(cfg) + "." + SQLiteExtension
  {
  }

  /** Deleting the extension of the store path gives `<documents>/<base>`
      when the base name is a stem. */
  lemma StorePathStem(fs: FileSystem, cfg: Config)
    requires Paths.IsStem(StoreBaseName(cfg))
    ensures Paths.DeletingPathExtension(StorePath(fs, cfg)) == fs.documents + "/" + StoreBaseName(cfg)
  {
    var d := fs.documents + "/";
    var b := StoreBaseName(cfg);
    var stem := d + b;
    assert StorePath(fs, cfg) == d + (b + "." + SQLiteExtension);
    assert d + (b + "." + SQLiteExtension) == stem + "." + SQLiteExtension;
    Paths.StemAfterPrefix(d, b);
    Paths.ExtensionOfJoin(stem, SQLiteExtension);
  }

  /** With an empty base name the store path is the hidden file
      `<documents>/.sqlite`, which has no extension: deleting the extension
      leaves the whole path. */
  lemma UnnamedStorePathHasNoStem(fs: FileSystem, cfg: Config)
    requires StoreBaseName(cfg) == ""
    ensures StorePath(fs, cfg) == fs.documents + "/." + SQLiteExtension
    ensures Paths.DeletingPathExtension(StorePath(fs, cfg)) == StorePath(fs, cfg)
  {
    assert StoreFileName(cfg) == "." + SQLiteExtension;
    assert fs.documents + "/" + ("." + SQLiteExtension) == fs.documents + "/." + SQLiteExtension;
    Paths.HiddenFileHasNoExtension(fs.documents, SQLiteExtension);
  }

  /** The seed is looked up under the model name, never the store name. */
  predicate HasSeed(cfg: Config) {
    HasResource(cfg.bundle, cfg.modelName, SQLiteExtension)
  }

  /** The seed is copied when no store file exists and the bundle ships one. */
  predicate NeedsSeed(cfg: Config, fs: FileSystem) {
    StorePath(fs, cfg) !in fs.files && HasSeed(cfg)
  }

  /** The file system once the seed, when needed, has been copied. */
  function Seeded(cfg: Config, fs: FileSystem): FileSystem {
    if NeedsSeed(cfg, fs) then Created(fs, StorePath(fs, cfg)) else fs
  }

  /** `removeItemAtPath`: fails on a missing file and on a refused one. */
  function RemoveFile(fs: FileSystem, path: string): (r: Option<FileSystem>)
    ensures r.Some? <==> path in fs.files && path !in fs.unremovable
    ensures r.Some? ==> path !in r.value.files && r.value.unremovable == fs.unremovable && r.value.documents == fs.documents
    ensures r.Some? ==> forall q :: q != path ==> (q in r.value.files <==> q in fs.files)
  {
    if path in fs.files && path !in fs.unremovable then Some(fs.(files := fs.files - {path})) else None
  }

  function Created(fs: FileSystem, path: string): FileSystem {
    fs.(files := fs.files + {path})
  }

  /** Adding the SQLite store, with the recovery policy: when the first add
      fails the file is removed and the add is retried exactly once. A failed
      removal or a failed retry is fatal; there is no third attempt. */
  function AddWithRecovery(fs: FileSystem, path: string, o: OpenOracle): (r: Outcome<(FileSystem, seq<Step>)>)
    ensures r.Done? <==> o.firstAddOk || (RemoveFile(fs, path).Some? && o.retryAddOk)
    ensures r == Fatal(RemoveStoreFailed) <==> !o.firstAddOk && RemoveFile(fs, path).None?
    ensures r == Fatal(AddStoreFailed) <==> !o.firstAddOk && RemoveFile(fs, path).Some? && !o.retryAddOk
    ensures r.Done? ==>
      && path in r.value.0.files
      && r.value.0.files - {path} == fs.files - {path}
      && r.value.0.documents == fs.documents
      && r.value.0.unremovable == fs.unremovable
    ensures r.Done? ==>
      r.value.1 == (if o.firstAddOk then [AddStoreAttempt(true)]
                    else [AddStoreAttempt(false), RemovedStore, AddStoreAttempt(true)])
    ensures r.Done? ==> CopiedSeed !in r.value.1 && ExcludedFromBackup !in r.value.1
  {
    if o.firstAddOk then Done((Created(fs, path), [AddStoreAttempt(true)]))
    else
      match RemoveFile(fs, path)
      case None => Fatal(RemoveStoreFailed)
      case Some(fs') =>
        if o.retryAddOk then Done((Created(fs', path), [AddStoreAttempt(false), RemovedStore, AddStoreAttempt(true)]))
        else Fatal(AddStoreFailed)
  }

  /** The log of a successful SQLite open: the seed copy when one was made,
      then the add steps, then the backup exclusion when one was made. */
  function OpenLog(copied: bool, adds: seq<Step>, excluded: bool): (log: seq<Step>)
    ensures |log| == (if copied then 1 else 0) + |adds| + (if excluded then 1 else 0)
    ensures copied ==> log[0] == CopiedSeed
    ensures excluded ==> log[|log| - 1] == ExcludedFromBackup
    ensures var k := if copied then 1 else 0; log[k..k + |adds|] == adds
    ensures CopiedSeed in log <==> copied || CopiedSeed in adds
    ensures ExcludedFromBackup in log <==> excluded || ExcludedFromBackup in adds
    ensures CountAdds(log) == CountAdds(adds)
  {
    var pre: seq<Step> := if copied then [CopiedSeed] else [];
    var post: seq<Step> := if excluded then [ExcludedFromBackup] else [];
    CountAddsAppend(pre, adds);
    CountAddsAppend(pre + adds, post);
    assert (pre + adds + post)[|pre|..|pre| + |adds|] == adds;
    pre + adds + post
  }

  /** The SQLite branch: copy the seed when no store file exists yet, add the
      store with recovery, then exclude the file from backup unless testing. */
  function OpenSQLite(cfg: Config, model: ModelSource, testing: bool, fs: FileSystem, o: OpenOracle): (r: Outcome<Opened>)
    requires cfg.storeType == SQLite
    ensures r.Done? <==>
      && (NeedsSeed(cfg, fs) ==> o.copySeedOk)
      && AddWithRecovery(Seeded(cfg, fs), StorePath(fs, cfg), o).Done?
      && (testing || o.excludeOk)
    ensures r.Done? ==>
      && r.value.coordinator == Coordinator(model, SQLite, Some(StorePath(fs, cfg)), !testing)
      && r.value.fs == AddWithRecovery(Seeded(cfg, fs), StorePath(fs, cfg), o).value.0
      && (CopiedSeed in r.value.log <==> NeedsSeed(cfg, fs))
      && (ExcludedFromBackup in r.value.log <==> !testing)
    ensures r.Done? && NeedsSeed(cfg, fs) ==> r.value.log[0] == CopiedSeed
    ensures r.Done? && !testing ==> r.value.log[|r.value.log| - 1] == ExcludedFromBackup
    ensures r.Done? ==>
      var adds := AddWithRecovery(Seeded(cfg, fs), StorePath(fs, cfg), o).value.1;
      var k := if NeedsSeed(cfg, fs) then 1 else 0;
      k + |adds| <= |r.value.log| && r.value.log[k..k + |adds|] == adds
    ensures r.Done? ==> CountAdds(r.value.log) == CountAdds(AddWithRecovery(Seeded(cfg, fs), StorePath(fs, cfg), o).value.1)
  {
    var path := StorePath(fs, cfg);
    var preload := NeedsSeed(cfg, fs);
    if preload && !o.copySeedOk then Fatal(CopyPreloadFailed)
    else
      var added :- AddWithRecovery(Seeded(cfg, fs), path, o);
      var exclude := cfg.storeType == SQLite && !testing;
      if exclude && !o.excludeOk then Fatal(ExcludeFromBackupFailed)
      else
        var log := OpenLog(preload, added.1, exclude);
        assert CopiedSeed in log <==> preload;
        assert ExcludedFromBackup in log <==> exclude;
        Done(Opened(Coordinator(model, SQLite, Some(path), exclude), added.0, log))
  }

  /** The body of the `persistentStoreCoordinator` getter when its slot is
      empty. */
  function OpenCoordinator(cfg: Config, testing: bool, fs: FileSystem, o: OpenOracle): (r: Outcome<Opened>)
    ensures r.Done? <==>
      && ResolveModel(cfg.bundle, cfg.modelName).Some?
      && (cfg.storeType == InMemory ==> o.memoryAddOk)
      && (cfg.storeType == SQLite ==>
            && (NeedsSeed(cfg, fs) ==> o.copySeedOk)
            && AddWithRecovery(Seeded(cfg, fs), StorePath(fs, cfg), o).Done?
            && (testing || o.excludeOk))
    ensures ResolveModel(cfg.bundle, cfg.modelName).None? ==> r == Fatal(ModelNotFound)
    ensures ResolveModel(cfg.bundle, cfg.modelName).Some? && cfg.storeType == InMemory && !o.memoryAddOk ==>
      r == Fatal(AddStoreFailed)
    ensures ResolveModel(cfg.bundle, cfg.modelName).Some? && cfg.storeType == SQLite ==>
      var added := AddWithRecovery(Seeded(cfg, fs), StorePath(fs, cfg), o);
      && (NeedsSeed(cfg, fs) && !o.copySeedOk ==> r == Fatal(CopyPreloadFailed))
      && ((NeedsSeed(cfg, fs) ==> o.copySeedOk) && added.Fatal? ==> r == Fatal(added.reason))
      && ((NeedsSeed(cfg, fs) ==> o.copySeedOk) && added.Done? && !testing && !o.excludeOk ==>
            r == Fatal(ExcludeFromBackupFailed))
    ensures r.Done? ==>
      && Some(r.value.coordinator.model) == ResolveModel(cfg.bundle, cfg.modelName)
      && r.value.coordinator.storeType == cfg.storeType
      && r.value.fs.documents == fs.documents
      && r.value.fs.unremovable == fs.unremovable
    ensures r.Done? && cfg.storeType == InMemory ==>
      && r.value.fs == fs
      && r.value.log == []
      && r.value.coordinator.storeURL == o.memoryStoreURL
    ensures r.Done? && cfg.storeType == SQLite ==>
      && r.value.coordinator.storeURL == Some(StorePath(fs, cfg))
      && StorePath(fs, cfg) in r.value.fs.files
      && r.value.fs.files - {StorePath(fs, cfg)} == fs.files - {StorePath(fs, cfg)}
    ensures r.Done? ==> (r.value.coordinator.backupExcluded <==> cfg.storeType == SQLite && !testing)
  {
    match ResolveModel(cfg.bundle, cfg.modelName)
    case None => Fatal(ModelNotFound)
    case Some(model) =>
      match cfg.storeType
      case InMemory =>
        if o.memoryAddOk then Done(Opened(Coordinator(model, InMemory, o.memoryStoreURL, false), fs, []))
        else Fatal(AddStoreFailed)
      case SQLite => OpenSQLite(cfg, model, testing, fs, o)
  }

  function CountAdds(log: seq<Step>): nat {
    if |log| == 0 then 0
    else (if log[0].AddStoreAttempt? then 1 else 0) + CountAdds(log[1..])
  }

  /** At position `i` the log holds a failed add, the removal of the store
      file, and a successful retry, in that order. */
  predicate RetriedAt(log: seq<Step>, i: int) {
    0 <= i && i + 3 <= |log| && log[i..i + 3] == [AddStoreAttempt(false), RemovedStore, AddStoreAttempt(true)]
  }

  /** Whatever the oracle answers, a successful open made at most two add
      attempts, and when it made two the first failed and the store file was
      removed in between. */
  lemma OpenRetriesAtMostOnce(cfg: Config, testing: bool, fs: FileSystem, o: OpenOracle)
    requires OpenCoordinator(cfg, testing, fs, o).Done?
    ensures CountAdds(OpenCoordinator(cfg, testing, fs, o).value.log) <= 2
    ensures CountAdds(OpenCoordinator(cfg, testing, fs, o).value.log) == 2 ==>
      !o.firstAddOk && RemovedStore in OpenCoordinator(cfg, testing, fs, o).value.log
    ensures CountAdds(OpenCoordinator(cfg, testing, fs, o).value.log) == 2 ==>
      exists i :: RetriedAt(OpenCoordinator(cfg, testing, fs, o).value.log, i)
  {
    var log := OpenCoordinator(cfg, testing, fs, o).value.log;
    var model := ResolveModel(cfg.bundle, cfg.modelName).value;
    if cfg.storeType == SQLite {
      var sqlite := OpenSQLite(cfg, model, testing, fs, o);
      assert log == sqlite.value.log;
      var adds := AddWithRecovery(Seeded(cfg, fs), StorePath(fs, cfg), o).value.1;
      RecoveryAdds(adds);
      if !o.firstAddOk {
        var k := if NeedsSeed(cfg, fs) then 1 else 0;
        assert log[k..k + 3] == adds;
        assert RetriedAt(log, k);
      }
    }
  }

  /** The two add logs recovery can produce make one and two attempts. */
  lemma RecoveryAdds(adds: seq<Step>)
    requires adds == [AddStoreAttempt(true)] || adds == [AddStoreAttempt(false), RemovedStore, AddStoreAttempt(true)]
    ensures CountAdds(adds) == |adds| / 2 + 1
    ensures CountAdds(adds) == 2 ==> adds[1] == RemovedStore && !adds[0].ok
  {
    if |adds| == 3 {
      assert adds[1..][1..][1..] == [];
    }
  }

  lemma {:induction false} CountAddsAppend(a: seq<Step>, b: seq<Step>)
    ensures CountAdds(a + b) == CountAdds(a) + CountAdds(b)
    decreases |a|
  {
    if |a| == 0 {
      assert a + b == b;
    } else {
      assert (a + b)[1..] == a[1..] + b;
      CountAddsAppend(a[1..], b);
    }
  }

  /** The seed is copied exactly when the store file is missing and the
      bundle ships `<modelName>.sqlite`; an existing store file is never
      overwritten. */
  lemma SeedCopiedOnlyWhenAbsent(cfg: Config, testing: bool, fs: FileSystem, o: OpenOracle)
    requires cfg.storeType == SQLite
    requires OpenCoordinator(cfg, testing, fs, o).Done?
    ensures CopiedSeed in OpenCoordinator(cfg, testing, fs, o).value.log <==>
      StorePath(fs, cfg) !in fs.files && HasSeed(cfg)
  {
  }

  /** A failed seed copy stops the process before the store is added. */
  lemma SeedCopyFailureIsFatal(cfg: Config, testing: bool, fs: FileSystem, o: OpenOracle)
    requires cfg.storeType == SQLite && ResolveModel(cfg.bundle, cfg.modelName).Some?
    requires StorePath(fs, cfg) !in fs.files && HasSeed(cfg) && !o.copySeedOk
    ensures OpenCoordinator(cfg, testing, fs, o) == Fatal(CopyPreloadFailed)
  {
  }

  /** A SQLite store that opens under tests, whichever add attempt
      succeeded, stops the process outside tests when its backup exclusion
      fails; under tests exclusion is never attempted. */
  lemma ExclusionFailureIsFatal(cfg: Config, fs: FileSystem, o: OpenOracle)
    requires cfg.storeType == SQLite && !o.excludeOk
    requires OpenCoordinator(cfg, true, fs, o).Done?
    ensures OpenCoordinator(cfg, false, fs, o) == Fatal(ExcludeFromBackupFailed)
    ensures !OpenCoordinator(cfg, true, fs, o).value.coordinator.backupExcluded
  {
  }

  /** `disposablePersistentStoreCoordinator`: always in memory, and loaded
      from the `.momd` resource only. */
  function DisposableCoordinator(cfg: Config, o: OpenOracle): (r: Outcome<Coordinator>)
    ensures r.Done? <==> Loads(cfg.bundle, cfg.modelName, "momd") && o.memoryAddOk
    ensures !Loads(cfg.bundle, cfg.modelName, "momd") ==> r == Fatal(DisposableModelNotFound)
    ensures Loads(cfg.bundle, cfg.modelName, "momd") && !o.memoryAddOk ==> r == Fatal(DisposableAddStoreFailed)
    ensures r.Done? ==> r.value.storeType == InMemory && r.value.model == Momd && !r.value.backupExcluded
  {
    if !HasResource(cfg.bundle, cfg.modelName, "momd") then Fatal(DisposableModelNotFound)
    else
      match LoadModel(cfg.bundle, cfg.modelName, "momd", Momd)
      case None => Fatal(DisposableModelNotFound)
      case Some(model) =>
        if o.memoryAddOk then Done(Coordinator(model, InMemory, o.memoryStoreURL, false))
        else Fatal(DisposableAddStoreFailed)
  }

  /** A bundle shipping only a `.mom` serves the main coordinator but not the
      disposable one. */
  lemma DisposableNeedsMomd(cfg: Config, o: OpenOracle)
    requires Loads(cfg.bundle, cfg.modelName, "mom") && !HasResource(cfg.bundle, cfg.modelName, "momd")
    ensures ResolveModel(cfg.bundle, cfg.modelName) == Some(Mom)
    ensures DisposableCoordinator(cfg, o) == Fatal(DisposableModelNotFound)
  {
  }
}

=== FILE: testcheck.dfy ===
/** `TestCheck.isTesting` and the two dispatch choices derived from it.
    The flag is a pure predicate over the process environment; the stack
    receives its value once, as an explicit parameter, instead of reading a
    process-wide static. */
module TestCheck {
  import opened Outcomes
  import Paths

  type Environment = map<string, string>

  const TravisKey: string := "TRAVIS"
  const TestConfigurationKey: string := "XCTestConfigurationFilePath"
  const ServiceNameKey: string := "XPC_SERVICE_NAME"
  const InjectBundleKey: string := "XCInjectBundle"
  const TestBundleExtension: string := "xctest"

  function Lookup(env: Environment, key: string): Option<string> {
    if key in env then Some(env[key]) else None
  }

  /** The variable `key` is set and names an `.xctest` bundle. */
  predicate NamesTestBundle(env: Environment, key: string) {
    key in env && Paths.PathExtension(env[key]) == TestBundleExtension
  }

  /** `TestCheck.isTesting`: a CI or test-configuration variable is present,
      or the XPC service name, or failing that the injected bundle, has the
      extension `xctest`. Absent variables contribute false. */
  function IsTesting(env: Environment): (r: bool)
    ensures r <==>
      || TravisKey in env
      || TestConfigurationKey in env
      || NamesTestBundle(env, ServiceNameKey)
      || NamesTestBundle(env, InjectBundleKey)
  {
    var serviceName := Lookup(env, ServiceNameKey);
    var injectBundle := Lookup(env, InjectBundleKey);
    var isRunning := TravisKey in env || TestConfigurationKey in env;
    var isRunning :=
      if !isRunning && serviceName.Some? then Paths.PathExtension(serviceName.value) == TestBundleExtension
      else isRunning;
    var isRunning :=
      if !isRunning && injectBundle.Some? then Paths.PathExtension(injectBundle.value) == TestBundleExtension
      else isRunning;
    isRunning
  }

  /** A test runner's service name `<stem>.xctest` switches test mode on,
      whatever else the environment holds. The stem must be non-empty and not
      end in `/`: `.xctest` alone names a hidden file without an extension. */
  lemma ServiceNameOfTestBundle(env: Environment, stem: string)
    requires Paths.IsStem(stem)
    ensures IsTesting(env[ServiceNameKey := stem + "." + TestBundleExtension])
  {
    Paths.ExtensionOfJoin(stem, TestBundleExtension);
  }

  /** Without any of the four variables the process is never in test mode. */
  lemma NoIndicatorNoTesting(env: Environment)
    requires TravisKey !in env && TestConfigurationKey !in env
    requires ServiceNameKey !in env && InjectBundleKey !in env
    ensures !IsTesting(env)
  {
  }

  /** Confinement of the writer and background contexts. */
  datatype ConcurrencyType = MainQueueConcurrency | PrivateQueueConcurrency

  /** How a block is handed to a context: `performBlockAndWait:` runs it
      before returning, `performBlock:` enqueues it. */
  datatype PerformMode = PerformBlockAndWait | PerformBlock {
    predicate RunsBeforeReturn() {
      PerformBlockAndWait?
    }
  }

  /** `backgroundConcurrencyType()`: main-queue confinement under tests. */
  function BackgroundConcurrencyType(testing: bool): (c: ConcurrencyType)
    ensures c == MainQueueConcurrency <==> testing
  {
    if testing then MainQueueConcurrency else PrivateQueueConcurrency
  }

  /** `performSelectorForBackgroundContext()`: blocking hand-off under tests. */
  function PerformSelectorForBackgroundContext(testing: bool): (m: PerformMode)
    ensures m.RunsBeforeReturn() <==> testing
  {
    if testing then PerformBlockAndWait else PerformBlock
  }

  /** The environment decides both choices together: a test environment gets
      main-queue confinement with synchronous hand-off, any other gets a
      private queue with asynchronous hand-off. */
  lemma DispatchFollowsEnvironment(env: Environment)
    ensures IsTesting(env) ==>
      BackgroundConcurrencyType(IsTesting(env)) == MainQueueConcurrency
      && PerformSelectorForBackgroundContext(IsTesting(env)) == PerformBlockAndWait
    ensures !IsTesting(env) ==>
      BackgroundConcurrencyType(IsTesting(env)) == PrivateQueueConcurrency
      && PerformSelectorForBackgroundContext(IsTesting(env)) == PerformBlock
  {
  }
}
